=== FILE: README.md ===
# Replanetizer level assembly and renderable buffers, in Dafny

This project models two pieces of Replanetizer, an editor for Ratchet & Clank
levels:

- **Level assembly** (`Level.cs`): the engine-file constructor `Level(enginePath)`.
  It derives the level directory from the engine file's path and opens the
  engine file. It detects the game variant, then opens the sibling
  `vram.ps3`. If the vram file is invalid, it returns a level with
  `valid == false`. Otherwise it opens `gameplay_ntsc` and fills the level's
  fields from the three parsers, in a fixed order. Four fields are never
  assigned and stay null: `engineHeader`, `terrainModel`, `chunks` and
  `unk9`. The order is:
  - texture headers before the vram backfill;
  - model lists before the instances that refer to them;
  - instance lists before the regions sized by them.

  It then closes the parsers and sets `valid`.
- **Renderable buffers** (`Replanetizer/Utils/RenderableBuffer.cs`): the index
  and vertex buffers of one model object. The model covers:
  - the byte sizes the buffers are allocated and filled with;
  - the terrain interleave, which packs each vertex's 4 RGBA bytes into a
    ninth float after the 8 vertex floats;
  - the per-type uniform copy and the selection flag;
  - the texture chosen for each submesh;
  - the vertex attribute layout;
  - the draw calls `Render` issues.

Modules:

| file | module | contents |
|---|---|---|
| common.dfy | `Common` | byte and word types, C# `int` wrap-around, `Option` and `Result` |
| single.dfy | `Single` | a C# `float` as its 32-bit pattern; `BitConverter.ToSingle` and `GetBytes` |
| assets.dfy | `Assets` | models, textures, placements; instance resolution by model id; the vram texture fill |
| level.dfy | `LevelAssembly` | the `Level` object (one `Option` per reference field, `None` = null) and the constructor |
| vertex_layout.dfy | `VertexLayout` | the terrain interleave (array loop), its inverse, the attribute layout |
| renderable_buffer.dfy | `Rendering` | buffer sizes, constructor, `UpdateBuffers`, `UpdateUniforms`, `Select`, `Render` |

The parsers are not part of this model. Their files are records of what each
getter returns; a getter that takes arguments (`GetPlayerAnimations`,
`GetMobies`, `GetTieData`, `getShrubData`, `GetPvars`) is a function of them.
The getters whose result the constructor only reads through `?.`
(`GetTerrainModels`, `GetPlayerAnimations`, `GetUiElements`, `GetMobies`)
may return null, and so may `Path.GetDirectoryName`. A null directory
concatenates like the empty string, as C# does.
`GetTies`, `GetShrubs` and `GetMobies` return placements resolved against
the model list they are given: each placement gets the first model with its
id, or stays unresolved. The host supplies `Path.GetDirectoryName` and the
file found at each path. OpenGL is not modelled as a library. Each GL call
is a value in a returned call list, and `GL.GenBuffers` names are
parameters.

In `Assemble`, reading a field goes through `.value`, whose precondition is
the null check. Verifying the method therefore shows that the constructor's
order never reads a field before it is assigned.

## Model

| member | source | states |
|---|---|---|
| LevelAssembly.Assemble | Level.cs:121-271 | `Failure` (the index exception of `mobyModels[0]`) exactly when the vram file is valid and there are no moby models. Otherwise `valid` equals the vram file's validity. The directory (possibly null) comes from the engine path. The vram path is `dir + "/vram.ps3"` and the gameplay path `dir + "/gameplay_ntsc"`. The game is detected from the engine file. On an invalid vram file only the directory and game are set, no gameplay parser exists, and the engine and vram parsers stay open. A valid level is exactly the reference `Loaded`: every assigned field holds its getter's value and every parser is closed. That includes the opaque byte regions, languages, record lists and model lists. Textures are the engine's headers filled from the vram regions. Ties and shrubs are resolved against the level's own tie and shrub model lists, and mobies against its moby models for the detected game. Player animations are read for the first moby model. `tieData` and `shrubData` are sized by the tie and shrub instance counts, and `pVars` is read for the (possibly null) mobies. Fields from getters that never return null are non-null. `engineHeader`, `terrainModel`, `chunks` and `unk9` stay null. |
| Assets.FindModel | Level.cs:187 | `None` exactly when no model carries the id; otherwise the first model that does |
| Assets.Resolve | Level.cs:186-192 | one instance per placement, in order, keeping the placement's id and content; a resolved instance's model is in the list and carries the id; an unresolved one has no model with that id |
| Assets.ResolveUnique | Level.cs:187 | with unique model ids, an instance resolves to a model exactly when that model carries the instance's id |
| Assets.ResolveExample | Level.cs:186-188 | ids 10, 11, 12 and references 10, 11, 10, 99, 12 give five instances; the fourth is unresolved and the rest resolve to the model with their id |
| Assets.FillTextures | Level.cs:182-183 | the texture list keeps its length and headers; a texture with a vram region gets that region's pixels; one without keeps its payload |
| Common.WrapInt32 | Replanetizer/Utils/RenderableBuffer.cs:52 | the result is a 32-bit `int`, congruent to the exact value modulo 2^32, and equal to it when no overflow occurs |
| Single.ToSingleAt | Replanetizer/Utils/RenderableBuffer.cs:103 | a float exactly when 4 bytes exist at the offset; that float's bytes are those 4 bytes |
| Single.BytesOfFromBytes | Replanetizer/Utils/RenderableBuffer.cs:103 | reinterpreting 4 bytes as a float and reading its bytes back gives the same bytes |
| Single.FromBytesOfBytes | Replanetizer/Utils/RenderableBuffer.cs:103 | the inverse of `BytesOfFromBytes`: a float rebuilt from its own 4 bytes is that float, so reading bytes as a float loses nothing |
| VertexLayout.ColourWord | Replanetizer/Utils/RenderableBuffer.cs:103 | the colour float of vertex `i` has exactly the bytes `rgbas[4i..4i+4]` |
| VertexLayout.Interleave | Replanetizer/Utils/RenderableBuffer.cs:88-105 | succeeds exactly when `4 * (v / 8) <= r`; otherwise the exception is `ToSingle`'s, and every earlier array write is in bounds. On success the result is the record-by-record reference `Interleaved`: length `v + r / 4`, whole records interleaved with their colour words, then zeros. |
| VertexLayout.InterleaveRecord | Replanetizer/Utils/RenderableBuffer.cs:95-103 | one loop iteration fails exactly when fewer than 4 colour bytes remain for the record; on success the record is written and the rest of the array is untouched |
| VertexLayout.InterleavedRecord | Replanetizer/Utils/RenderableBuffer.cs:93-104 | slots `9i..9i+7` of the interleaved array equal vertex floats `8i..8i+7`, and the bytes of slot `9i+8` are `rgbas[4i..4i+4]` |
| VertexLayout.InterleavedPadding | Replanetizer/Utils/RenderableBuffer.cs:92 | past the whole records the interleaved array holds zeros |
| VertexLayout.RecordsPrefix | Replanetizer/Utils/RenderableBuffer.cs:93 | adding records leaves the earlier records in place |
| VertexLayout.RecordsSlice | Replanetizer/Utils/RenderableBuffer.cs:95-103 | record `i` is the 8 floats of vertex `i` followed by its colour word |
| VertexLayout.DeinterleaveRecords | Replanetizer/Utils/RenderableBuffer.cs:93-104 | splitting the first `n` interleaved records gives back the first `n` vertex records and their RGBA bytes |
| VertexLayout.DeinterleaveInterleaved | Replanetizer/Utils/RenderableBuffer.cs:91-105 | round trip: the interleave loses nothing of the whole vertex records or their colours |
| VertexLayout.AttributePointers | Replanetizer/Utils/RenderableBuffer.cs:204-219 | terrain has four attributes and other types three. They are numbered in order, all use the record as stride (36 bytes for terrain, 32 otherwise), and tile it: each starts where the previous ends and the last ends at the record's end. The terrain colour is 4 normalised unsigned bytes. |
| VertexLayout.TerrainLayoutReadsInterleaved | Replanetizer/Utils/RenderableBuffer.cs:206-211 | with the terrain attribute layout (9-float stride, normalised bytes at float 8), vertex `i` reads its position, normal and texture coordinates from the interleaved array, and exactly its own RGBA bytes |
| VertexLayout.PlainLayoutReadsVertices | Replanetizer/Utils/RenderableBuffer.cs:213-218 | with the 8-float layout, vertex `i` reads its position, normal and texture coordinates straight from the uploaded vertices |
| Rendering.IboBytes | Replanetizer/Utils/RenderableBuffer.cs:52 | `iboLength` is a C# `int`, and without overflow is 2 bytes per index |
| Rendering.IboAllocatedBytes | Replanetizer/Utils/RenderableBuffer.cs:57 | the index buffer's allocation is a C# `int`, and without overflow is 4 bytes per index (`iboLength` scaled by `sizeof(ushort)` again) |
| Rendering.VboBytes | Replanetizer/Utils/RenderableBuffer.cs:61-62 | `vboLength` is a C# `int`, and without overflow is 4 bytes per vertex float plus, for terrain only, one per colour byte |
| Rendering.BufferSizes | Replanetizer/Utils/RenderableBuffer.cs:51-107 | without overflow: a buffer is created exactly when there are indices (resp. vertex data); the index upload is `2n` bytes and the allocation `4n`, twice as much; a non-terrain upload equals its allocation `4v`; a terrain upload is `4v + r - r % 4`, at most the allocation |
| Rendering.Allocate | Replanetizer/Utils/RenderableBuffer.cs:45-68 | each buffer is named and allocated only when its computed length is positive, with the usage hint from `IsDynamic()`; the new buffer is unselected and has default uniforms |
| Rendering.Create | Replanetizer/Utils/RenderableBuffer.cs:37-72 | fails exactly when a created terrain vertex buffer has too few colour bytes, or when the object's class does not match the rendered type. The calls are exactly the allocations, then the index upload, then (unless the interleave throws) the vertex upload. A failing interleave is the colour-bytes exception. Otherwise the result is the allocated buffer with its uniforms copied. On success each buffer exists exactly when its computed length is positive, and the buffer keeps the object, type, ID, the level's texture list and the texture-id map, unselected. |
| Rendering.BindsCreatedBuffers | Replanetizer/Utils/RenderableBuffer.cs:183-202 | for an object whose byte counts do not overflow a C# `int`: on a new buffer, `BindIBO()` succeeds exactly when the object has indices and binds the generated name. `BindVBO()` succeeds exactly when it has vertex floats or, for terrain, colour bytes. Selection and the uniform copy do not change either outcome. |
| Rendering.UpdateBuffers | Replanetizer/Utils/RenderableBuffer.cs:77-110 | throws exactly when a bound terrain vertex buffer has too few colour bytes, and then has already made the index upload (if the index buffer binds) and nothing else. Otherwise it makes the index upload when the index buffer binds, then the vertex upload when the vertex buffer binds. The vertex upload is the reference interleaving for terrain and the unchanged vertices otherwise. |
| Rendering.UpdateUniforms | Replanetizer/Utils/RenderableBuffer.cs:115-134 | an invalid cast exactly when the object's class does not match the type. Mobies and shrubs copy light and colour, ties copy only the light and keep the ambient colour, and other types change nothing. No other field changes. |
| Rendering.UpdateUniformsIdempotent | Replanetizer/Utils/RenderableBuffer.cs:115-134 | copying the uniforms twice is the same as once |
| Rendering.Select | Replanetizer/Utils/RenderableBuffer.cs:140-143 | selected exactly when the buffer's object is the selected object; null selects nothing; nothing else changes |
| Rendering.SelectLastWins | Replanetizer/Utils/RenderableBuffer.cs:142 | only the last selection counts, so repeating a selection changes nothing |
| Rendering.TextureFor | Replanetizer/Utils/RenderableBuffer.cs:159 | texture 0 when the config id is at most 0. Otherwise it is the GL id mapped from the level's texture at that index. An index past the list and an unmapped texture are the two exceptions. Any texture bound is 0 or one of the map's GL ids. |
| Rendering.DrawPass | Replanetizer/Utils/RenderableBuffer.cs:157-161 | succeeds exactly when every config's texture can be found, and otherwise raises the exception of the first config whose texture cannot be found; for config `k` it binds that texture, then draws `size` indices from byte offset `start * 2` |
| Rendering.Render | Replanetizer/Utils/RenderableBuffer.cs:148-178 | no calls unless both buffers bind. Otherwise the calls are the attribute layout, then the texture loop, then the outline exactly when the buffer is selected, and nothing else. A failing texture loop raises the texture loop's own exception. |
| Rendering.DrawPassNeutral | Replanetizer/Utils/RenderableBuffer.cs:157-161 | the texture loop changes neither blending, nor the program, nor the polygon mode |
| Rendering.OutlineRestores | Replanetizer/Utils/RenderableBuffer.cs:163-177 | the outline restores the object shader, filled polygons, and (when switching) enabled blending |
| Rendering.OutlineDrawsWireframe | Replanetizer/Utils/RenderableBuffer.cs:163-177 | the outline makes one draw: the whole index buffer from offset 0, with the colour shader, in line mode, and with blending off when switching blends |
| Rendering.RenderRestoresState | Replanetizer/Utils/RenderableBuffer.cs:148-178 | from the object shader, filled polygons and (when switching) enabled blending, `Render` leaves that state unchanged |

## Left out

- Console logging, the finaliser, and the I/O of the parsers' `Close()`. A parser's closing is recorded only as the state of its handle.
- The parsers' decoding: what each getter returns is an input. Every getter other than `GetTerrainModels`, `GetPlayerAnimations`, `GetUiElements` and `GetMobies` is assumed never to return null. For most of them the constructor's logging (`.Count`) would throw on a null. For the rest (the byte regions, models and records) the parser's code is not part of this model.
- LevelAssembly.Assemble: exceptions raised inside the parser constructors and getters (a corrupt or missing file, a failed decode) propagate out of the C# constructor but are not modelled; every host function and getter is total, so `Failure` covers only the `mobyModels[0]` index exception. The parsers' code is not part of this model.
- LevelAssembly.Assemble: assumes the cast `(MobyModel)mobyModels[0]` succeeds, because the class of a decoded moby model belongs to the engine parser.
- The parameterless `Level()` constructor is only the all-null starting value `NullLevel`.
- `Window.cs` and `MemoryHook/MemoryAddresses.cs`: window, event loop and a plain data holder, with no behaviour of the modelled core.
- Float arithmetic: floats are only copied and reinterpreted, so a float is its bit pattern, read on a little-endian host.
- The MVP matrix product and the `UniformMatrix4` calls: they involve floating-point matrices and static renderer state.
- Buffer binding and unbinding calls: `BindIbo` and `BindVbo` are modelled only by their results.
- The static shader and matrix ids: they are shared renderer state, so the model names the two programs abstractly.
- Rendering.BufferSizes: states the size relations only for objects small enough that no byte count wraps. The functions it relates do model the 32-bit wrap-around.
- Rendering.BindsCreatedBuffers: states the binding outcomes only for objects whose byte counts fit a C# `int`; from 2^30 indices on, `iboLength` can wrap to a value that is not positive. Then no buffer is made although the object has indices; `Allocate` states that case.
- Rendering.Create: the buffer stores the level's texture list and the texture-id map as values taken at construction. The C# class keeps references and rereads them on every `Render`, so changes made to them later from outside are not modelled.
- Rendering.Render: on an exception in the texture loop, the calls already issued are not reported. Only the exception is.
- Rendering.DrawPass: when a config's texture cannot be found, the binds and draws of the earlier configs are not reported. Only the exception is.
- Arrays longer than the C# `int` range, and `fullData` lengths that would overflow. C# would throw at allocation; the model does not.

=== FILE: assets.dfy ===
/** The decoded entities a level is made of. Their binary layouts belong to the
    engine, vram and gameplay parsers, which are not part of this model, so each
    entity keeps only what the assembly relies on — a model's numeric id, an
    instance's model reference, a texture's header and pixel payload — and
    carries everything else as opaque decoded content. */
module Assets {
  import opened Common

  /** A decoded record whose fields the assembly never inspects (lights,
      splines, animations, UI elements, level variables, "type NN" records, ...). */
  datatype Record = Record(content: Bytes)

  /** A static model: moby, tie, shrub, weapon, skybox or collision mesh. */
  datatype Model = Model(id: int, content: Bytes)

  /** A texture: the header the engine file gives, and the pixel payload the
      vram file fills in afterwards (empty until then). */
  datatype Texture = Texture(header: Record, pixels: Bytes)

  /** A moby, tie or shrub placement as stored in its file: the numeric id of
      the model it shows, and the rest of the record. */
  datatype Placement = Placement(modelId: int, content: Bytes)

  /** A placement whose model id has been looked up: `model` is the model
      found, or `None` when the list has no model with that id. */
  datatype Instance = Instance(modelId: int, model: Option<Model>, content: Bytes)

  /** `models.Find(m => m.id == id)`: the first model carrying `id`, or null. */
  function FindModel(models: seq<Model>, id: int): (r: Option<Model>)
    ensures r.None? ==> forall k :: 0 <= k < |models| ==> models[k].id != id
    ensures r.Some? ==> exists k :: 0 <= k < |models| && models[k] == r.value && FirstWithId(models, id, k)
  {
    if |models| == 0 then None
    else if models[0].id == id then
      assert FirstWithId(models, id, 0);
      Some(models[0])
    else
      var rest := FindModel(models[1..], id);
      if rest.Some? then
        var k :| 0 <= k < |models[1..]| && models[1..][k] == rest.value && FirstWithId(models[1..], id, k);
        assert FirstWithId(models, id, k + 1);
        rest
      else
        None
  }

  /** `models[k]` carries `id` and no earlier model does. */
  predicate FirstWithId(models: seq<Model>, id: int, k: int) {
    && 0 <= k < |models|
    && models[k].id == id
    && forall j :: 0 <= j < k ==> models[j].id != id
  }

  /** No two models in the list share an id. */
  predicate UniqueIds(models: seq<Model>) {
    forall i, j :: 0 <= i < j < |models| ==> models[i].id != models[j].id
  }

  /** Resolves every placement against one model list, keeping the placements'
      order; a placement whose id is absent stays unresolved. */
  function Resolve(placements: seq<Placement>, models: seq<Model>): (r: seq<Instance>)
    ensures |r| == |placements|
    ensures forall i :: 0 <= i < |r| ==>
      r[i].modelId == placements[i].modelId && r[i].content == placements[i].content
    ensures forall i :: 0 <= i < |r| && r[i].model.Some? ==>
      r[i].model.value in models && r[i].model.value.id == r[i].modelId
    ensures forall i :: 0 <= i < |r| && r[i].model.None? ==>
      forall k :: 0 <= k < |models| ==> models[k].id != r[i].modelId
  {
    seq(|placements|, i requires 0 <= i < |placements| =>
      Instance(placements[i].modelId, FindModel(models, placements[i].modelId), placements[i].content))
  }

  /** When model ids are unique, an instance resolves to exactly the model that
      carries its id, and is unresolved exactly when no model does. */
  lemma ResolveUnique(placements: seq<Placement>, models: seq<Model>, i: int, k: int)
    requires UniqueIds(models)
    requires 0 <= i < |placements| && 0 <= k < |models|
    ensures Resolve(placements, models)[i].model == Some(models[k]) <==> models[k].id == placements[i].modelId
  {
    var r := Resolve(placements, models);
    if models[k].id == placements[i].modelId {
      var found := r[i].model;
      assert found.Some?;
      var k' :| 0 <= k' < |models| && models[k'] == found.value && FirstWithId(models, placements[i].modelId, k');
      assert k' == k;
    }
  }

  /** `vramParser.GetTextures(textures)`: fills, in place, the pixel payload of
      every texture the vram file has a region for, by position in the list;
      a texture without a region keeps the payload it had. */
  function FillTextures(textures: seq<Texture>, regions: map<nat, Bytes>): (r: seq<Texture>)
    ensures |r| == |textures|
    ensures forall i :: 0 <= i < |r| ==> r[i].header == textures[i].header
    ensures forall i :: 0 <= i < |r| && i in regions ==> r[i].pixels == regions[i]
    ensures forall i :: 0 <= i < |r| && i !in regions ==> r[i] == textures[i]
  {
    seq(|textures|, i requires 0 <= i < |textures| =>
      if i in regions then textures[i].(pixels := regions[i]) else textures[i])
  }

  /** Three tie models with ids 10, 11, 12 and five placements referring to
      10, 11, 10, 99, 12: five instances, the fourth unresolved, the others
      resolved to the model with their id. */
  lemma ResolveExample(a: Bytes, b: Bytes, c: Bytes, p: Bytes)
    ensures
      var models := [Model(10, a), Model(11, b), Model(12, c)];
      var placements := [Placement(10, p), Placement(11, p), Placement(10, p), Placement(99, p), Placement(12, p)];
      var r := Resolve(placements, models);
      && |r| == 5
      && r[0].model == Some(models[0]) && r[1].model == Some(models[1]) && r[2].model == Some(models[0])
      && r[3].model == None && r[4].model == Some(models[2])
  {
    var models := [Model(10, a), Model(11, b), Model(12, c)];
    var placements := [Placement(10, p), Placement(11, p), Placement(10, p), Placement(99, p), Placement(12, p)];
    assert UniqueIds(models);
    ResolveUnique(placements, models, 0, 0);
    ResolveUnique(placements, models, 1, 1);
    ResolveUnique(placements, models, 2, 0);
    ResolveUnique(placements, models, 4, 2);
  }
}

=== FILE: common.dfy ===
/** Value types shared by the level model and the renderer model: machine
    integers of the widths the C# code uses, and failure-compatible wrappers
    standing for C# nulls and exceptions. */
module Common {

  /** A C# `byte`. */
  type Byte = x: int | 0 <= x < 0x100

  /** A C# `ushort`, the element type of index buffers. */
  type UShort = x: int | 0 <= x < 0x1_0000

  /** An unsigned 32-bit pattern. */
  type Word = x: int | 0 <= x < 0x1_0000_0000

  /** A C# `byte[]`. */
  type Bytes = seq<Byte>

  const Int32Min: int := -0x8000_0000
  const Int32Max: int := 0x7FFF_FFFF

  predicate InInt32(x: int) {
    Int32Min <= x <= Int32Max
  }

  /** The value an unchecked C# `int` expression takes when the exact result is `x`:
      two's-complement wrap-around modulo 2^32. */
  function WrapInt32(x: int): (r: int)
    ensures InInt32(r)
    ensures (r - x) % 0x1_0000_0000 == 0
    ensures InInt32(x) ==> r == x
  {
    (x - Int32Min) % 0x1_0000_0000 + Int32Min
  }

  /** A value that may be absent: a C# null, or no result. */
  datatype Option<+T> = None | Some(value: T)

  /** The outcome of an operation that can end in a C# exception. */
  datatype Result<+T, +E> = Success(value: T) | Failure(error: E) {
    predicate IsFailure() {
      Failure?
    }

    function PropagateFailure<U>(): Result<U, E>
      requires Failure?
    {
      Failure(error)
    }

    function Extract(): T
      requires Success?
    {
      value
    }
  }
}

=== FILE: level.dfy ===
/** The engine-file constructor of `Level`: it opens the engine file and the
    sibling `vram.ps3` and `gameplay_ntsc` files, then fills the level's fields
    one getter call at a time.

    The level under construction is a record with one `Option` per reference
    field of the C# class: `None` is null. Reading a field goes through
    `.value`, whose precondition is the null check, so verifying `Assemble`
    shows that the constructor never reads a field before assigning it. The
    parsers are not part of this model. A parser is the record of what its
    getters return, and a getter that takes arguments is a function of them. */
module LevelAssembly {
  import opened Common
  import opened Assets

  type Path = string

  /** The game variant `EngineParser.DetectGame` reports; its encoding is the
      parser's business. */
  datatype GameType = GameType(code: int)

  /** What the engine parser's getters return for one engine file. The three
      getters whose result the constructor only reads through `?.` may return
      null (`None`). */
  datatype EngineFile = EngineFile(
    game: GameType,
    terrainBytes: Bytes,
    renderDefBytes: Bytes,
    collisionBytes: Bytes,
    billboardBytes: Bytes,
    soundConfigBytes: Bytes,
    skybox: Model,
    mobyModels: seq<Model>,
    tieModels: seq<Model>,
    shrubModels: seq<Model>,
    weaponModels: seq<Model>,
    textures: seq<Texture>,
    tiePlacements: seq<Placement>,
    shrubPlacements: seq<Placement>,
    lights: seq<Record>,
    terrains: Option<seq<Record>>,
    playerAnimations: Model -> Option<seq<Record>>,
    uiElements: Option<seq<Record>>,
    lightConfig: Bytes,
    textureConfigMenus: seq<int>,
    collisionModel: Model)

  /** What the vram parser offers: whether the file could be read, and the
      pixel region it holds for each texture index. */
  datatype VramFile = VramFile(valid: bool, regions: map<nat, Bytes>)

  /** What the gameplay parser's getters return for one gameplay file.
      `GetMobies` may return null (`None`), and `GetPvars` is then given
      null. */
  datatype GameplayFile = GameplayFile(
    levelVariables: Record,
    mobyPlacements: GameType -> Option<seq<Placement>>,
    splines: seq<Record>,
    english: Bytes,
    lang2: Bytes,
    french: Bytes,
    german: Bytes,
    spanish: Bytes,
    italian: Bytes,
    lang7: Bytes,
    lang8: Bytes,
    unk6: Bytes,
    unk7: Bytes,
    unk13: Bytes,
    unk17: Bytes,
    unk14: Bytes,
    tieData: nat -> Bytes,
    shrubData: nat -> Bytes,
    type04s: seq<Record>,
    type0Cs: seq<Record>,
    type64s: seq<Record>,
    type68s: seq<Record>,
    type7Cs: seq<Record>,
    type80s: seq<Record>,
    type88s: seq<Record>,
    type50s: seq<(int, int)>,
    type5Cs: seq<(int, int)>,
    pVars: Option<seq<Instance>> -> seq<Bytes>,
    spawnPoints: seq<Record>,
    gameCameras: seq<Record>,
    mobyIds: seq<int>,
    tieIds: seq<int>,
    shrubIds: seq<int>,
    occlusionData: Record)

  /** The world outside the constructor: `Path.GetDirectoryName`, which may
      return null (`None`), and the file each parser constructor reads at a
      path. The gameplay parser is also given the game variant. */
  datatype Host = Host(
    directoryName: Path -> Option<Path>,
    engineAt: Path -> EngineFile,
    vramAt: Path -> VramFile,
    gameplayAt: (GameType, Path) -> GameplayFile)

  /** C# string concatenation, where a null operand reads as the empty
      string. */
  function Concat(directory: Option<Path>, name: string): (r: Path)
    ensures directory.Some? ==> r == directory.value + name
    ensures directory.None? ==> r == name
  {
    match directory
    case Some(d) => d + name
    case None => name
  }

  function VramPath(directory: Option<Path>): Path {
    Concat(directory, "/vram.ps3")
  }

  function GameplayPath(directory: Option<Path>): Path {
    Concat(directory, "/gameplay_ntsc")
  }

  /** The fields of the C# `Level` class, in declaration order. */
  datatype Level = Level(
    valid: bool,
    path: Option<Path>,
    engineHeader: Option<Record>,
    game: Option<GameType>,
    mobyModels: Option<seq<Model>>,
    tieModels: Option<seq<Model>>,
    shrubModels: Option<seq<Model>>,
    weaponModels: Option<seq<Model>>,
    terrainModel: Option<Model>,
    collisionModel: Option<Model>,
    chunks: Option<seq<Model>>,
    textures: Option<seq<Texture>>,
    skybox: Option<Model>,
    terrainBytes: Option<Bytes>,
    renderDefBytes: Option<Bytes>,
    collBytes: Option<Bytes>,
    billboardBytes: Option<Bytes>,
    soundConfigBytes: Option<Bytes>,
    playerAnimations: Option<seq<Record>>,
    uiElements: Option<seq<Record>>,
    mobs: Option<seq<Instance>>,
    ties: Option<seq<Instance>>,
    shrubs: Option<seq<Instance>>,
    lights: Option<seq<Record>>,
    splines: Option<seq<Record>>,
    terrains: Option<seq<Record>>,
    textureConfigMenus: Option<seq<int>>,
    levelVariables: Option<Record>,
    occlusionData: Option<Record>,
    english: Option<Bytes>,
    lang2: Option<Bytes>,
    french: Option<Bytes>,
    german: Option<Bytes>,
    spanish: Option<Bytes>,
    italian: Option<Bytes>,
    lang7: Option<Bytes>,
    lang8: Option<Bytes>,
    unk6: Option<Bytes>,
    unk7: Option<Bytes>,
    unk9: Option<Bytes>,
    unk13: Option<Bytes>,
    unk17: Option<Bytes>,
    unk14: Option<Bytes>,
    lightConfig: Option<Bytes>,
    type50s: Option<seq<(int, int)>>,
    type5Cs: Option<seq<(int, int)>>,
    tieData: Option<Bytes>,
    shrubData: Option<Bytes>,
    type04s: Option<seq<Record>>,
    type0Cs: Option<seq<Record>>,
    type64s: Option<seq<Record>>,
    type68s: Option<seq<Record>>,
    type7Cs: Option<seq<Record>>,
    type80s: Option<seq<Record>>,
    type88s: Option<seq<Record>>,
    pVars: Option<seq<Bytes>>,
    spawnPoints: Option<seq<Record>>,
    gameCameras: Option<seq<Record>>,
    mobyIds: Option<seq<int>>,
    tieIds: Option<seq<int>>,
    shrubIds: Option<seq<int>>)

  /** A freshly allocated `Level`: `valid` false and every reference null. */
  const NullLevel: Level := Level(false,
    None, None, None, None, None, None, None, None, None, None,
    None, None, None, None, None, None, None, None, None, None,
    None, None, None, None, None, None, None, None, None, None,
    None, None, None, None, None, None, None, None, None, None,
    None, None, None, None, None, None, None, None, None, None,
    None, None, None, None, None, None, None, None, None, None)

  /** Every field the engine-file constructor assigns from a getter that
      never returns null is non-null. */
  predicate Complete(l: Level) {
    && l.game.Some?
    && l.terrainBytes.Some? && l.renderDefBytes.Some? && l.collBytes.Some?
    && l.billboardBytes.Some? && l.soundConfigBytes.Some?
    && l.skybox.Some? && l.mobyModels.Some? && l.tieModels.Some? && l.shrubModels.Some?
    && l.weaponModels.Some? && l.textures.Some?
    && l.ties.Some? && l.shrubs.Some? && l.lights.Some?
    && l.levelVariables.Some? && l.splines.Some?
    && l.lightConfig.Some? && l.textureConfigMenus.Some? && l.collisionModel.Some?
    && l.english.Some? && l.lang2.Some? && l.french.Some? && l.german.Some?
    && l.spanish.Some? && l.italian.Some? && l.lang7.Some? && l.lang8.Some?
    && l.unk6.Some? && l.unk7.Some? && l.unk13.Some? && l.unk17.Some? && l.unk14.Some?
    && l.tieData.Some? && l.shrubData.Some?
    && l.type04s.Some? && l.type0Cs.Some? && l.type64s.Some? && l.type68s.Some?
    && l.type7Cs.Some? && l.type80s.Some? && l.type88s.Some?
    && l.type50s.Some? && l.type5Cs.Some?
    && l.pVars.Some? && l.spawnPoints.Some? && l.gameCameras.Some?
    && l.mobyIds.Some? && l.tieIds.Some? && l.shrubIds.Some? && l.occlusionData.Some?
  }

  /** The fields the engine-file constructor never assigns. */
  predicate NeverAssigned(l: Level) {
    l.engineHeader.None? && l.terrainModel.None? && l.chunks.None? && l.unk9.None?
  }

  /** A parser local of the constructor. */
  datatype Handle<T> = Unopened | Open(path: Path, file: T) | Closed(path: Path, file: T)
  {
    function Close(): Handle<T>
      requires Open?
    {
      Closed(path, file)
    }
  }

  /** The constructor's outcome: the level object, and the state its three
      parser locals were left in. */
  datatype Assembly = Assembly(
    level: Level,
    engine: Handle<EngineFile>,
    vram: Handle<VramFile>,
    gameplay: Handle<GameplayFile>)

  /** The exception the constructor raises itself: `mobyModels[0]` on an
      empty list (`ArgumentOutOfRangeException`). */
  datatype Fault = MobyModelIndexOutOfRange

  /** `GetMobies(game, mobyModels)`: the gameplay file's moby placements
      resolved against the moby models, or null when the parser has none. */
  function Mobies(gameplay: GameplayFile, game: GameType, mobyModels: seq<Model>): Option<seq<Instance>> {
    match gameplay.mobyPlacements(game)
    case Some(placements) => Some(Resolve(placements, mobyModels))
    case None => None
  }

  /** The level a successful load produces, field by field: each assigned
      field holds what its getter returns, and the fields no getter assigns
      keep their null. The tie and shrub instances are resolved against the
      level's tie and shrub model lists, the mobies against its moby models
      for the detected game, and the tie and shrub data regions are sized by
      the instance counts. */
  function Loaded(directory: Option<Path>, engine: EngineFile, vram: VramFile, gameplay: GameplayFile): Level
    requires |engine.mobyModels| > 0
  {
    var mobs := Mobies(gameplay, engine.game, engine.mobyModels);
    var ties := Resolve(engine.tiePlacements, engine.tieModels);
    var shrubs := Resolve(engine.shrubPlacements, engine.shrubModels);
    NullLevel.(
      valid := true,
      path := directory,
      game := Some(engine.game),
      terrainBytes := Some(engine.terrainBytes),
      renderDefBytes := Some(engine.renderDefBytes),
      collBytes := Some(engine.collisionBytes),
      billboardBytes := Some(engine.billboardBytes),
      soundConfigBytes := Some(engine.soundConfigBytes),
      skybox := Some(engine.skybox),
      mobyModels := Some(engine.mobyModels),
      tieModels := Some(engine.tieModels),
      shrubModels := Some(engine.shrubModels),
      weaponModels := Some(engine.weaponModels),
      textures := Some(FillTextures(engine.textures, vram.regions)),
      ties := Some(ties),
      shrubs := Some(shrubs),
      lights := Some(engine.lights),
      terrains := engine.terrains,
      playerAnimations := engine.playerAnimations(engine.mobyModels[0]),
      uiElements := engine.uiElements,
      levelVariables := Some(gameplay.levelVariables),
      mobs := mobs,
      splines := Some(gameplay.splines),
      lightConfig := Some(engine.lightConfig),
      textureConfigMenus := Some(engine.textureConfigMenus),
      collisionModel := Some(engine.collisionModel),
      english := Some(gameplay.english),
      lang2 := Some(gameplay.lang2),
      french := Some(gameplay.french),
      german := Some(gameplay.german),
      spanish := Some(gameplay.spanish),
      italian := Some(gameplay.italian),
      lang7 := Some(gameplay.lang7),
      lang8 := Some(gameplay.lang8),
      unk6 := Some(gameplay.unk6),
      unk7 := Some(gameplay.unk7),
      unk13 := Some(gameplay.unk13),
      unk17 := Some(gameplay.unk17),
      unk14 := Some(gameplay.unk14),
      tieData := Some(gameplay.tieData(|ties|)),
      shrubData := Some(gameplay.shrubData(|shrubs|)),
      type04s := Some(gameplay.type04s),
      type0Cs := Some(gameplay.type0Cs),
      type64s := Some(gameplay.type64s),
      type68s := Some(gameplay.type68s),
      type7Cs := Some(gameplay.type7Cs),
      type80s := Some(gameplay.type80s),
      type88s := Some(gameplay.type88s),
      type50s := Some(gameplay.type50s),
      type5Cs := Some(gameplay.type5Cs),
      pVars := Some(gameplay.pVars(mobs)),
      spawnPoints := Some(gameplay.spawnPoints),
      gameCameras := Some(gameplay.gameCameras),
      mobyIds := Some(gameplay.mobyIds),
      tieIds := Some(gameplay.tieIds),
      shrubIds := Some(gameplay.shrubIds),
      occlusionData := Some(gameplay.occlusionData))
  }

  /** The engine-file constructor `Level(enginePath)`. `Failure` is the
      exception it raises itself; `Success(a)` is the constructed object
      `a.level`, whose `valid` is false when the vram file could not be read. */
  method Assemble(enginePath: Path, host: Host) returns (r: Result<Assembly, Fault>)
    ensures
      var engine := host.engineAt(enginePath);
      var directory := host.directoryName(enginePath);
      var vram := host.vramAt(VramPath(directory));
      && (r.Failure? <==> vram.valid && |engine.mobyModels| == 0)
      && (r.Success? ==> (r.value.level.valid <==> vram.valid))
      // the sibling paths come from the engine file's directory; the game
      // variant is detected before anything else is read
      && (r.Success? ==>
            && r.value.level.path == directory
            && r.value.level.game == Some(engine.game)
            && NeverAssigned(r.value.level)
            && !r.value.engine.Unopened? && r.value.engine.path == enginePath
            && !r.value.vram.Unopened? && r.value.vram.path == VramPath(directory))
    // an unreadable vram file aborts before the gameplay parser exists and
    // before any model, texture or instance field is assigned; the engine and
    // vram parsers are left open
    ensures r.Success? && !r.value.level.valid ==>
      && r.value.level == NullLevel.(path := host.directoryName(enginePath), game := Some(host.engineAt(enginePath).game))
      && r.value.gameplay.Unopened?
      && r.value.engine.Open? && r.value.vram.Open?
    // a valid level has every field assigned from its getter, and every
    // parser closed
    ensures r.Success? && r.value.level.valid ==>
      var engine := host.engineAt(enginePath);
      var directory := host.directoryName(enginePath);
      var vram := host.vramAt(VramPath(directory));
      var gameplay := host.gameplayAt(engine.game, GameplayPath(directory));
      var l := r.value.level;
      && |engine.mobyModels| > 0
      && l == Loaded(directory, engine, vram, gameplay)
      && Complete(l)
      && r.value.engine.Closed? && r.value.vram.Closed? && r.value.gameplay.Closed?
      && r.value.gameplay.path == GameplayPath(directory)
      // instances refer to the level's own model lists
      && l.ties == Some(Resolve(engine.tiePlacements, l.tieModels.value))
      && l.shrubs == Some(Resolve(engine.shrubPlacements, l.shrubModels.value))
      && l.mobs == Mobies(gameplay, l.game.value, l.mobyModels.value)
      && l.tieData == Some(gameplay.tieData(|l.ties.value|))
      && l.shrubData == Some(gameplay.shrubData(|l.shrubs.value|))
      && l.pVars == Some(gameplay.pVars(l.mobs))
  {
    var l := NullLevel;
    l := l.(path := host.directoryName(enginePath));
    var engineParser := Open(enginePath, host.engineAt(enginePath));
    var engine := engineParser.file;
    l := l.(game := Some(engine.game));
    var vramPath := VramPath(l.path);
    var vramParser := Open(vramPath, host.vramAt(vramPath));
    if !vramParser.file.valid {
      l := l.(valid := false);
      return Success(Assembly(l, engineParser, vramParser, Unopened));
    }
    var gameplayPath := GameplayPath(l.path);
    var gameplayParser := Open(gameplayPath, host.gameplayAt(l.game.value, gameplayPath));
    var gameplay := gameplayParser.file;

    l := l.(terrainBytes := Some(engine.terrainBytes));
    l := l.(renderDefBytes := Some(engine.renderDefBytes));
    l := l.(collBytes := Some(engine.collisionBytes));
    l := l.(billboardBytes := Some(engine.billboardBytes));
    l := l.(soundConfigBytes := Some(engine.soundConfigBytes));
    l := l.(skybox := Some(engine.skybox));
    l := l.(mobyModels := Some(engine.mobyModels));
    l := l.(tieModels := Some(engine.tieModels));
    l := l.(shrubModels := Some(engine.shrubModels));
    l := l.(weaponModels := Some(engine.weaponModels));
    l := l.(textures := Some(engine.textures));
    l := l.(textures := Some(FillTextures(l.textures.value, vramParser.file.regions)));

    l := l.(ties := Some(Resolve(engine.tiePlacements, l.tieModels.value)));
    l := l.(shrubs := Some(Resolve(engine.shrubPlacements, l.shrubModels.value)));
    l := l.(lights := Some(engine.lights));
    l := l.(terrains := engine.terrains);
    if |l.mobyModels.value| == 0 {
      return Failure(MobyModelIndexOutOfRange);
    }
    l := l.(playerAnimations := engine.playerAnimations(l.mobyModels.value[0]));
    l := l.(uiElements := engine.uiElements);

    l := l.(levelVariables := Some(gameplay.levelVariables));
    l := l.(mobs := Mobies(gameplay, l.game.value, l.mobyModels.value));
    l := l.(splines := Some(gameplay.splines));
    l := l.(lightConfig := Some(engine.lightConfig));
    l := l.(textureConfigMenus := Some(engine.textureConfigMenus));
    l := l.(collisionModel := Some(engine.collisionModel));

    l := l.(english := Some(gameplay.english));
    l := l.(lang2 := Some(gameplay.lang2));
    l := l.(french := Some(gameplay.french));
    l := l.(german := Some(gameplay.german));
    l := l.(spanish := Some(gameplay.spanish));
    l := l.(italian := Some(gameplay.italian));
    l := l.(lang7 := Some(gameplay.lang7));
    l := l.(lang8 := Some(gameplay.lang8));
    l := l.(unk6 := Some(gameplay.unk6));
    l := l.(unk7 := Some(gameplay.unk7));
    l := l.(unk13 := Some(gameplay.unk13));
    l := l.(unk17 := Some(gameplay.unk17));
    l := l.(unk14 := Some(gameplay.unk14));

    l := l.(tieData := Some(gameplay.tieData(|l.ties.value|)));
    l := l.(shrubData := Some(gameplay.shrubData(|l.shrubs.value|)));
    l := l.(type04s := Some(gameplay.type04s));
    l := l.(type0Cs := Some(gameplay.type0Cs));
    l := l.(type64s := Some(gameplay.type64s));
    l := l.(type68s := Some(gameplay.type68s));
    l := l.(type7Cs := Some(gameplay.type7Cs));
    l := l.(type80s := Some(gameplay.type80s));
    l := l.(type88s := Some(gameplay.type88s));
    l := l.(type50s := Some(gameplay.type50s));
    l := l.(type5Cs := Some(gameplay.type5Cs));
    l := l.(pVars := Some(gameplay.pVars(l.mobs)));
    l := l.(spawnPoints := Some(gameplay.spawnPoints));
    l := l.(gameCameras := Some(gameplay.gameCameras));
    l := l.(mobyIds := Some(gameplay.mobyIds));
    l := l.(tieIds := Some(gameplay.tieIds));
    l := l.(shrubIds := Some(gameplay.shrubIds));
    l := l.(occlusionData := Some(gameplay.occlusionData));

    engineParser := engineParser.Close();
    vramParser := vramParser.Close();
    gameplayParser := gameplayParser.Close();
    l := l.(valid := true);
    return Success(Assembly(l, engineParser, vramParser, gameplayParser));
  }
}

=== FILE: renderable_buffer.dfy ===
/** `RenderableBuffer`: the index and vertex buffers of one model object, its
    lighting uniforms, its selection flag, and the draw calls that render it.

    OpenGL is not part of this model. Each GL call the class makes is recorded
    as a `GlCall` value, so that an operation returns the calls it issues in
    order. Buffer names come from `GL.GenBuffers` and are passed in as
    positive numbers. C# exceptions are `Failure` results. */
module Rendering {
  import opened Common
  import opened Single
  import opened VertexLayout

  /** `RenderedObjectType`; `OtherType` stands for every member the class
      does not treat specially. */
  datatype RenderedType = Moby | Tie | Shrub | Terrain | OtherType

  /** `System.Drawing.Color`, as its four 8-bit channels. */
  datatype Color = Color(alpha: Byte, red: Byte, green: Byte, blue: Byte)

  /** `default(Color)`, the value of `ambient` before any assignment. */
  const EmptyColor: Color := Color(0, 0, 0, 0)

  /** The run-time class of a model object, with the fields `UpdateUniforms`
      reads from it. */
  datatype ObjectClass =
    | MobyObject(light: int, color: Color)
    | TieObject(light: int)
    | ShrubObject(light: int, color: Color)
    | OtherObject

  /** The identity of a C# object: two references are `==` exactly when they
      carry the same identity. */
  type Identity = nat

  /** A `TextureConfig` entry: the texture index, and the first index and
      index count of the triangles drawn with it. */
  datatype TextureConfig = TextureConfig(id: int, start: int, size: int)

  /** The parts of the object's `Model` the renderer reads. */
  datatype Mesh = Mesh(rgbas: Bytes, indexBuffer: seq<UShort>, textureConfig: seq<TextureConfig>)

  /** A `ModelObject`: its identity, class, `IsDynamic()`, `GetIndices()`,
      `GetVertices()` and `model`. */
  datatype ModelObject = ModelObject(
    identity: Identity,
    kind: ObjectClass,
    dynamic: bool,
    indices: seq<UShort>,
    vertices: seq<Single>,
    model: Mesh)

  /** A GL buffer name returned by `GL.GenBuffers`; 0 is never returned. */
  type GlName = x: int | x > 0 witness 1

  datatype Target = ElementArrayBuffer | ArrayBuffer

  datatype Usage = StaticDraw | DynamicDraw

  /** The shader programs the class switches between. */
  datatype Program = ObjectShader | ColorShader

  datatype PolygonMode = Fill | Line

  /** What `GL.BufferSubData` sends. */
  datatype Payload = IndexData(indices: seq<UShort>) | VertexData(floats: seq<Single>)

  /** The GL calls the class makes, with their arguments. Binding and
      unbinding a buffer and setting the MVP matrix are not recorded. */
  datatype GlCall =
    | BufferData(target: Target, sizeBytes: int, usage: Usage)
    | BufferSubData(target: Target, sizeBytes: int, payload: Payload)
    | AttribPointer(attribute: Attribute)
    | BindTexture(texture: int)
    | DrawElements(count: int, offsetBytes: int)
    | SetBlend(enabled: bool)
    | UseProgram(program: Program)
    | SetPolygonMode(mode: PolygonMode)

  /** The exceptions the class can raise. */
  datatype Fault =
    | ColourBytesMissing      // `BitConverter.ToSingle` past the end of `rgbas`
    | InvalidCast             // the object's class does not match the rendered type
    | TextureIndexOutOfRange  // `level.textures[conf.ID]` past the end
    | TextureNotLoaded        // `textureIds` has no entry for the texture

  /** A texture of the level, by identity: `Texture` is a class, so the
      `textureIds` dictionary is keyed by reference. */
  type TextureRef = Identity

  /** The state of one `RenderableBuffer`. */
  datatype Buffer = Buffer(
    modelObject: ModelObject,
    rendered: RenderedType,
    id: int,
    ibo: int,
    vbo: int,
    light: int,
    ambient: Color,
    selected: bool,
    levelTextures: seq<TextureRef>,
    textureIds: map<TextureRef, int>)

  /* Buffer sizes, in bytes, computed with C# `int` arithmetic. */

  /** `iboLength`: index count times `sizeof(ushort)`, a C# `int`. */
  function IboBytes(o: ModelObject): (r: int)
    ensures InInt32(r)
    ensures FitsInt32(o) ==> r == 2 * |o.indices|
  {
    WrapInt32(|o.indices| * 2)
  }

  /** The size the index buffer is allocated with: `iboLength` scaled by
      `sizeof(ushort)` a second time, so four bytes per index. */
  function IboAllocatedBytes(o: ModelObject): (r: int)
    ensures InInt32(r)
    ensures FitsInt32(o) ==> r == 4 * |o.indices|
  {
    WrapInt32(IboBytes(o) * 2)
  }

  /** `vboLength`: vertex floats times `sizeof(float)`, plus one byte per
      colour byte for terrain. It is also the size the vertex buffer is
      allocated with. */
  function VboBytes(o: ModelObject, rendered: RenderedType): (r: int)
    ensures InInt32(r)
    ensures FitsInt32(o) ==> r == 4 * |o.vertices| + (if rendered == Terrain then |o.model.rgbas| else 0)
  {
    var floats := WrapInt32(|o.vertices| * 4);
    if rendered == Terrain then WrapInt32(floats + |o.model.rgbas|) else floats
  }

  /** The byte count `BufferSubData` is given for an uploaded index array. */
  function IndexUploadBytes(indices: seq<UShort>): int {
    WrapInt32(|indices| * 2)
  }

  /** The byte count `BufferSubData` is given for an uploaded float array. */
  function VertexUploadBytes(floats: seq<Single>): int {
    WrapInt32(|floats| * 4)
  }

  /** The object's sizes are small enough that no byte count above wraps. */
  predicate FitsInt32(o: ModelObject) {
    4 * |o.indices| <= Int32Max && 4 * |o.vertices| + |o.model.rgbas| <= Int32Max
  }

  /** The vertex floats `UpdateBuffers` sends: the interleaved records for
      terrain, the object's vertices unchanged otherwise. */
  function UploadedVertices(o: ModelObject, rendered: RenderedType): seq<Single>
    requires rendered == Terrain ==> ColoursCover(o.vertices, o.model.rgbas)
  {
    if rendered == Terrain then Interleaved(o.vertices, o.model.rgbas) else o.vertices
  }

  /** Without wrap-around, a buffer is created exactly when the object has
      indices (resp. vertex data), every upload fits in its allocation, the
      index buffer is allocated twice the bytes it receives, and the vertex
      buffer receives all its bytes except the `|rgbas| % 4` colour bytes that
      do not make a whole float. */
  lemma BufferSizes(o: ModelObject, rendered: RenderedType)
    requires FitsInt32(o)
    ensures IboBytes(o) > 0 <==> |o.indices| > 0
    ensures VboBytes(o, rendered) > 0 <==>
      |o.vertices| > 0 || (rendered == Terrain && |o.model.rgbas| > 0)
    ensures IndexUploadBytes(o.indices) == IboBytes(o)
    ensures IboAllocatedBytes(o) == 2 * IndexUploadBytes(o.indices)
    ensures IndexUploadBytes(o.indices) <= IboAllocatedBytes(o)
    ensures rendered != Terrain ==> VertexUploadBytes(UploadedVertices(o, rendered)) == VboBytes(o, rendered)
    ensures rendered == Terrain && ColoursCover(o.vertices, o.model.rgbas) ==>
      VboBytes(o, rendered) - VertexUploadBytes(UploadedVertices(o, rendered)) == |o.model.rgbas| % 4
    ensures rendered == Terrain ==> ColoursCover(o.vertices, o.model.rgbas) ==>
      VertexUploadBytes(UploadedVertices(o, rendered)) <= VboBytes(o, rendered)
  {
    var v, c := |o.vertices|, |o.model.rgbas|;
    if rendered == Terrain && ColoursCover(o.vertices, o.model.rgbas) {
      assert 4 * (v + c / 4) == 4 * v + c - c % 4;
    }
  }

  /** The allocation half of the constructor: each buffer is generated and
      allocated only when its computed length is positive (its name comes
      from `iboName` or `vboName`); the uniforms still hold their defaults. */
  function Allocate(o: ModelObject, rendered: RenderedType, id: int, levelTextures: seq<TextureRef>,
                    textureIds: map<TextureRef, int>, iboName: GlName, vboName: GlName)
    : (r: (Buffer, seq<GlCall>))
    ensures
      var (b, calls) := r;
      var usage := if o.dynamic then DynamicDraw else StaticDraw;
      && (BindIbo(b) <==> IboBytes(o) > 0)
      && (BindVbo(b) <==> VboBytes(o, rendered) > 0)
      && b == Buffer(o, rendered, id, b.ibo, b.vbo, 0, EmptyColor, false, levelTextures, textureIds)
      && calls ==
           (if BindIbo(b) then [BufferData(ElementArrayBuffer, IboAllocatedBytes(o), usage)] else [])
           + (if BindVbo(b) then [BufferData(ArrayBuffer, VboBytes(o, rendered), usage)] else [])
  {
    var usage := if o.dynamic then DynamicDraw else StaticDraw;
    var iboLength := IboBytes(o);
    var ibo := if iboLength > 0 then iboName else 0;
    var vboLength := VboBytes(o, rendered);
    var vbo := if vboLength > 0 then vboName else 0;
    (Buffer(o, rendered, id, ibo, vbo, 0, EmptyColor, false, levelTextures, textureIds),
     (if iboLength > 0 then [BufferData(ElementArrayBuffer, WrapInt32(iboLength * 2), usage)] else [])
     + (if vboLength > 0 then [BufferData(ArrayBuffer, vboLength, usage)] else []))
  }

  /** The constructor `RenderableBuffer(modelObject, type, ID, level,
      textureIds)`: allocation, then `UpdateBuffers()`, then
      `UpdateUniforms()`. It returns the new buffer, or the exception the
      constructor raises, together with the GL calls it made in order. */
  method Create(o: ModelObject, rendered: RenderedType, id: int, levelTextures: seq<TextureRef>,
                textureIds: map<TextureRef, int>, iboName: GlName, vboName: GlName)
    returns (r: Result<Buffer, Fault>, calls: seq<GlCall>)
    ensures r.Failure? <==>
      || (VboBytes(o, rendered) > 0 && rendered == Terrain && !ColoursCover(o.vertices, o.model.rgbas))
      || !ClassMatches(o.kind, rendered)
    ensures r.Success? ==>
      var b := r.value;
      && (BindIbo(b) <==> IboBytes(o) > 0)
      && (BindVbo(b) <==> VboBytes(o, rendered) > 0)
      && b.modelObject == o && b.rendered == rendered && b.id == id && !b.selected
      && b.levelTextures == levelTextures && b.textureIds == textureIds
    // the buffers are allocated first, then filled; a failing interleave
    // ends the constructor after the index upload, a failing cast after both
    // uploads
    ensures
      var (a, allocations) := Allocate(o, rendered, id, levelTextures, textureIds, iboName, vboName);
      && (InterleaveFails(a) ==> r == Failure(ColourBytesMissing) && calls == allocations + IndexUpload(a))
      && (!InterleaveFails(a) ==> calls == allocations + IndexUpload(a) + VertexUpload(a))
      && (!InterleaveFails(a) ==> r == UpdateUniforms(a))
  {
    var (b, allocations) := Allocate(o, rendered, id, levelTextures, textureIds, iboName, vboName);
    var uploads, fault := UpdateBuffers(b);
    calls := allocations + uploads;
    if fault.Some? {
      return Failure(fault.value), calls;
    }
    r := UpdateUniforms(b);
  }

  /** `BindIBO()`: succeeds exactly when the index buffer was created. */
  predicate BindIbo(b: Buffer) {
    b.ibo != 0
  }

  /** `BindVBO()`: succeeds exactly when the vertex buffer was created. */
  predicate BindVbo(b: Buffer) {
    b.vbo != 0
  }

  /** On a new buffer, `BindIBO()` succeeds exactly when the constructor
      generated the index buffer, which without wrap-around is exactly when
      the object has indices, and binds the generated name; likewise
      `BindVBO()` for vertex data. Selecting the buffer or copying its
      uniforms leaves both outcomes alone. */
  lemma BindsCreatedBuffers(o: ModelObject, rendered: RenderedType, id: int, levelTextures: seq<TextureRef>,
                            textureIds: map<TextureRef, int>, iboName: GlName, vboName: GlName,
                            selection: Option<Identity>)
    requires FitsInt32(o)
    ensures
      var b := Allocate(o, rendered, id, levelTextures, textureIds, iboName, vboName).0;
      && (BindIbo(b) <==> |o.indices| > 0)
      && (BindIbo(b) ==> b.ibo == iboName)
      && (BindVbo(b) <==> |o.vertices| > 0 || (rendered == Terrain && |o.model.rgbas| > 0))
      && (BindVbo(b) ==> b.vbo == vboName)
      && BindIbo(Select(b, selection)) == BindIbo(b) && BindVbo(Select(b, selection)) == BindVbo(b)
      && (UpdateUniforms(b).Success? ==>
            BindIbo(UpdateUniforms(b).value) == BindIbo(b) && BindVbo(UpdateUniforms(b).value) == BindVbo(b))
  {
  }

  /** The vertex buffer binds, the object is terrain, and its colour bytes do
      not cover its whole vertex records: the interleave throws. */
  predicate InterleaveFails(b: Buffer) {
    BindVbo(b) && b.rendered == Terrain && !ColoursCover(b.modelObject.vertices, b.modelObject.model.rgbas)
  }

  /** The index upload, made when the index buffer binds. */
  function IndexUpload(b: Buffer): seq<GlCall> {
    var indices := b.modelObject.indices;
    if BindIbo(b) then [BufferSubData(ElementArrayBuffer, IndexUploadBytes(indices), IndexData(indices))] else []
  }

  /** The vertex upload, made when the vertex buffer binds: the reference
      interleaving for terrain, the vertices unchanged otherwise. */
  function VertexUpload(b: Buffer): seq<GlCall>
    requires !InterleaveFails(b)
  {
    if BindVbo(b) then
      var floats := UploadedVertices(b.modelObject, b.rendered);
      [BufferSubData(ArrayBuffer, VertexUploadBytes(floats), VertexData(floats))]
    else []
  }

  /** `UpdateBuffers()`: uploads the indices to a bound index buffer, then the
      vertex floats to a bound vertex buffer, interleaving the colours for
      terrain first. It returns the calls made and the exception raised, if
      any: the index upload has happened by the time the interleave throws. */
  method UpdateBuffers(b: Buffer) returns (calls: seq<GlCall>, fault: Option<Fault>)
    ensures fault.Some? <==> InterleaveFails(b)
    ensures fault.Some? ==> fault.value == ColourBytesMissing && calls == IndexUpload(b)
    ensures fault.None? ==> calls == IndexUpload(b) + VertexUpload(b)
  {
    calls := [];
    if BindIbo(b) {
      var iboData := b.modelObject.indices;
      calls := calls + [BufferSubData(ElementArrayBuffer, WrapInt32(|iboData| * 2), IndexData(iboData))];
    }
    if BindVbo(b) {
      var vboData := b.modelObject.vertices;
      if b.rendered == Terrain {
        var full := Interleave(vboData, b.modelObject.model.rgbas);
        if full.None? {
          return calls, Some(ColourBytesMissing);
        }
        vboData := full.value;
      }
      calls := calls + [BufferSubData(ArrayBuffer, WrapInt32(|vboData| * 4), VertexData(vboData))];
    }
    return calls, None;
  }

  /** Whether the cast `UpdateUniforms` makes for the rendered type succeeds. */
  predicate ClassMatches(c: ObjectClass, rendered: RenderedType) {
    match rendered
    case Moby => c.MobyObject?
    case Tie => c.TieObject?
    case Shrub => c.ShrubObject?
    case _ => true
    }

  /** `UpdateUniforms()`: mobies and shrubs copy their light and colour, ties
      only their light, every other type keeps both; nothing else changes. A
      cast to the wrong class is an `InvalidCastException`. */
  function UpdateUniforms(b: Buffer): (r: Result<Buffer, Fault>)
    ensures r.Failure? <==> !ClassMatches(b.modelObject.kind, b.rendered)
    ensures r.Failure? ==> r.error == InvalidCast
    ensures r.Success? ==> r.value == b.(light := r.value.light, ambient := r.value.ambient)
    ensures r.Success? && b.rendered in {Moby, Tie, Shrub} ==> r.value.light == b.modelObject.kind.light
    ensures r.Success? && b.rendered in {Moby, Shrub} ==> r.value.ambient == b.modelObject.kind.color
    ensures r.Success? && b.rendered == Tie ==> r.value.ambient == b.ambient
    ensures r.Success? && b.rendered in {Terrain, OtherType} ==> r.value == b
  {
    match b.rendered
    case Moby =>
      if b.modelObject.kind.MobyObject? then Success(b.(light := b.modelObject.kind.light, ambient := b.modelObject.kind.color))
      else Failure(InvalidCast)
    case Tie =>
      if b.modelObject.kind.TieObject? then Success(b.(light := b.modelObject.kind.light))
      else Failure(InvalidCast)
    case Shrub =>
      if b.modelObject.kind.ShrubObject? then Success(b.(light := b.modelObject.kind.light, ambient := b.modelObject.kind.color))
      else Failure(InvalidCast)
    case _ => Success(b)
  }

  /** Copying the uniforms a second time changes nothing. */
  lemma UpdateUniformsIdempotent(b: Buffer)
    requires UpdateUniforms(b).Success?
    ensures UpdateUniforms(UpdateUniforms(b).value) == UpdateUniforms(b)
  {
  }

  /** `Select(selectedObject)`: the buffer is selected exactly when its object
      is the selected one (a null selection selects nothing); nothing else
      changes. */
  function Select(b: Buffer, selectedObject: Option<Identity>): (r: Buffer)
    ensures r.selected <==> selectedObject == Some(b.modelObject.identity)
    ensures r == b.(selected := r.selected)
  {
    b.(selected := selectedObject == Some(b.modelObject.identity))
  }

  /** Only the last selection matters, so selecting again with the same
      argument changes nothing. */
  lemma SelectLastWins(b: Buffer, first: Option<Identity>, second: Option<Identity>)
    ensures Select(Select(b, first), second) == Select(b, second)
    ensures Select(Select(b, second), second) == Select(b, second)
  {
  }

  /** The texture bound for a texture config: none (0) for a non-positive ID,
      else the GL id of the level's texture at that index. An index past the
      level's texture list, or a texture without a GL id, is an exception. */
  function TextureFor(conf: TextureConfig, levelTextures: seq<TextureRef>, textureIds: map<TextureRef, int>)
    : (r: Result<int, Fault>)
    ensures conf.id <= 0 ==> r == Success(0)
    ensures conf.id > 0 && conf.id >= |levelTextures| ==> r == Failure(TextureIndexOutOfRange)
    ensures 0 < conf.id < |levelTextures| ==>
      if levelTextures[conf.id] in textureIds then r == Success(textureIds[levelTextures[conf.id]])
      else r == Failure(TextureNotLoaded)
    ensures r.Success? ==> r.value == 0 || r.value in textureIds.Values
  {
    if conf.id > 0 then
      if conf.id >= |levelTextures| then Failure(TextureIndexOutOfRange)
      else if levelTextures[conf.id] !in textureIds then Failure(TextureNotLoaded)
      else Success(textureIds[levelTextures[conf.id]])
    else Success(0)
  }

  /** The draw call for one texture config: `conf.size` indices from index
      `conf.start`, whose byte offset is computed in C# `int`. */
  function DrawSubmesh(conf: TextureConfig): GlCall {
    DrawElements(conf.size, WrapInt32(conf.start * 2))
  }

  /** The texture loop of `Render`: for each config in order, bind its
      texture and draw its index range. The first config whose texture
      cannot be found raises its exception. */
  function DrawPass(confs: seq<TextureConfig>, levelTextures: seq<TextureRef>, textureIds: map<TextureRef, int>)
    : (r: Result<seq<GlCall>, Fault>)
    ensures r.Success? <==> forall k :: 0 <= k < |confs| ==> TextureFor(confs[k], levelTextures, textureIds).Success?
    ensures r.Failure? ==>
      exists k :: && 0 <= k < |confs|
                  && TextureFor(confs[k], levelTextures, textureIds) == Failure(r.error)
                  && forall j :: 0 <= j < k ==> TextureFor(confs[j], levelTextures, textureIds).Success?
    ensures r.Success? ==> |r.value| == 2 * |confs|
    ensures r.Success? ==> forall k :: 0 <= k < |confs| ==>
      && r.value[2 * k] == BindTexture(TextureFor(confs[k], levelTextures, textureIds).value)
      && r.value[2 * k + 1] == DrawSubmesh(confs[k])
  {
    if |confs| == 0 then Success([])
    else
      var texture :- TextureFor(confs[0], levelTextures, textureIds);
      var rest :- DrawPass(confs[1..], levelTextures, textureIds);
      assert forall k :: 1 <= k < |confs| ==> confs[k] == confs[1..][k - 1];
      Success([BindTexture(texture), DrawSubmesh(confs[0])] + rest)
  }

  /** `SetupVertexAttribPointers()`. */
  function AttribCalls(rendered: RenderedType): seq<GlCall> {
    var attrs := AttributePointers(rendered == Terrain);
    seq(|attrs|, k requires 0 <= k < |attrs| => AttribPointer(attrs[k]))
  }

  /** The wireframe outline drawn over a selected object, with blending
      switched off around it when `switchBlends` is set. */
  function Outline(b: Buffer, switchBlends: bool): seq<GlCall> {
    (if switchBlends then [SetBlend(false)] else [])
    + [UseProgram(ColorShader), SetPolygonMode(Line),
       DrawElements(|b.modelObject.model.indexBuffer|, 0),
       SetPolygonMode(Fill), UseProgram(ObjectShader)]
    + (if switchBlends then [SetBlend(true)] else [])
  }

  /** `Render(switchBlends)`: nothing unless both buffers bind; otherwise the
      attribute layout, the texture loop, and the outline when selected. */
  function Render(b: Buffer, switchBlends: bool): (r: Result<seq<GlCall>, Fault>)
    ensures !BindIbo(b) || !BindVbo(b) ==> r == Success([])
    ensures BindIbo(b) && BindVbo(b) ==>
      (r.Success? <==> DrawPass(b.modelObject.model.textureConfig, b.levelTextures, b.textureIds).Success?)
    ensures r.Failure? ==> r.error == DrawPass(b.modelObject.model.textureConfig, b.levelTextures, b.textureIds).error
    ensures r.Success? && BindIbo(b) && BindVbo(b) ==>
      var draws := DrawPass(b.modelObject.model.textureConfig, b.levelTextures, b.textureIds).value;
      var attribs := AttribCalls(b.rendered);
      && |attribs| + |draws| <= |r.value|
      && r.value[..|attribs|] == attribs
      && r.value[|attribs|..|attribs| + |draws|] == draws
      && r.value[|attribs| + |draws|..] == (if b.selected then Outline(b, switchBlends) else [])
      && (b.selected <==> |r.value| > |attribs| + |draws|)
  {
    if !BindIbo(b) || !BindVbo(b) then Success([])
    else
      var draws :- DrawPass(b.modelObject.model.textureConfig, b.levelTextures, b.textureIds);
      var attribs := AttribCalls(b.rendered);
      var outline := if b.selected then Outline(b, switchBlends) else [];
      assert (attribs + draws + outline)[..|attribs|] == attribs;
      assert (attribs + draws + outline)[|attribs|..|attribs| + |draws|] == draws;
      assert (attribs + draws + outline)[|attribs| + |draws|..] == outline;
      Success(attribs + draws + outline)
  }

  /** The part of the GL state `Render` switches and must hand back. */
  datatype GlState = GlState(blend: bool, program: Program, mode: PolygonMode)

  /** The effect of one call on that state. */
  function Apply(s: GlState, c: GlCall): GlState {
    match c
    case SetBlend(enabled) => s.(blend := enabled)
    case UseProgram(p) => s.(program := p)
    case SetPolygonMode(m) => s.(mode := m)
    case _ => s
  }

  /** The GL state after a sequence of calls. */
  function Replay(s: GlState, calls: seq<GlCall>): GlState
    decreases |calls|
  {
    if |calls| == 0 then s
    else Apply(Replay(s, calls[..|calls| - 1]), calls[|calls| - 1])
  }

  /** One more call is applied to the state the earlier calls left. */
  lemma ReplaySnoc(s: GlState, calls: seq<GlCall>, c: GlCall)
    ensures Replay(s, calls + [c]) == Apply(Replay(s, calls), c)
  {
    assert (calls + [c])[..|calls|] == calls;
  }

  /** Replaying two call sequences one after the other is replaying their
      concatenation. */
  lemma {:induction false} ReplayAppend(s: GlState, a: seq<GlCall>, b: seq<GlCall>)
    ensures Replay(s, a + b) == Replay(Replay(s, a), b)
    decreases |b|
  {
    if |b| == 0 {
      assert a + b == a;
    } else {
      assert (a + b)[..|a + b| - 1] == a + b[..|b| - 1];
      assert (a + b)[|a + b| - 1] == b[|b| - 1];
      ReplayAppend(s, a, b[..|b| - 1]);
    }
  }

  /** Calls that touch none of blending, program and polygon mode leave that
      state alone. */
  lemma {:induction false} ReplayNeutral(s: GlState, calls: seq<GlCall>)
    requires forall k :: 0 <= k < |calls| ==> !calls[k].SetBlend? && !calls[k].UseProgram? && !calls[k].SetPolygonMode?
    ensures Replay(s, calls) == s
    decreases |calls|
  {
    if |calls| > 0 {
      ReplayNeutral(s, calls[..|calls| - 1]);
    }
  }

  /** The texture loop only binds textures and draws. */
  lemma DrawPassNeutral(confs: seq<TextureConfig>, levelTextures: seq<TextureRef>,
                        textureIds: map<TextureRef, int>, s: GlState)
    requires DrawPass(confs, levelTextures, textureIds).Success?
    ensures Replay(s, DrawPass(confs, levelTextures, textureIds).value) == s
  {
    var draws := DrawPass(confs, levelTextures, textureIds).value;
    forall k | 0 <= k < |draws|
      ensures draws[k].BindTexture? || draws[k].DrawElements?
    {
      var m := k / 2;
      assert 0 <= m < |confs| && (k == 2 * m || k == 2 * m + 1);
      assert draws[2 * m].BindTexture? && draws[2 * m + 1].DrawElements?;
    }
    ReplayNeutral(s, draws);
  }

  /** The outline switches to the colour shader and to lines and back, and
      re-enables blending after disabling it. */
  lemma OutlineRestores(b: Buffer, switchBlends: bool, s: GlState)
    requires s.program == ObjectShader && s.mode == Fill && (switchBlends ==> s.blend)
    ensures Replay(s, Outline(b, switchBlends)) == s
  {
    var pre: seq<GlCall> := if switchBlends then [SetBlend(false)] else [];
    var c1, c2, c3 := UseProgram(ColorShader), SetPolygonMode(Line), DrawElements(|b.modelObject.model.indexBuffer|, 0);
    var c4, c5 := SetPolygonMode(Fill), UseProgram(ObjectShader);
    var body := pre + [c1] + [c2] + [c3] + [c4] + [c5];
    assert Outline(b, switchBlends) == body + (if switchBlends then [SetBlend(true)] else []);
    if switchBlends {
      ReplaySnoc(s, [], SetBlend(false));
      assert [] + [SetBlend(false)] == pre;
    }
    ReplaySnoc(s, pre, c1);
    ReplaySnoc(s, pre + [c1], c2);
    ReplaySnoc(s, pre + [c1] + [c2], c3);
    ReplaySnoc(s, pre + [c1] + [c2] + [c3], c4);
    ReplaySnoc(s, pre + [c1] + [c2] + [c3] + [c4], c5);
    if switchBlends {
      ReplaySnoc(s, body, SetBlend(true));
    } else {
      assert body + [] == body;
    }
  }

  /** The outline makes exactly one draw: the whole index buffer from offset
      0, with the colour shader, in line mode, and with blending off when
      `switchBlends` asks for it. */
  lemma OutlineDrawsWireframe(b: Buffer, switchBlends: bool, s: GlState)
    ensures
      var calls := Outline(b, switchBlends);
      var k := if switchBlends then 3 else 2;
      && k < |calls|
      && calls[k] == DrawElements(|b.modelObject.model.indexBuffer|, 0)
      && Replay(s, calls[..k]) == GlState(s.blend && !switchBlends, ColorShader, Line)
      && forall j :: 0 <= j < |calls| && j != k ==> !calls[j].DrawElements?
  {
    var calls := Outline(b, switchBlends);
    var pre: seq<GlCall> := if switchBlends then [SetBlend(false)] else [];
    var c1, c2 := UseProgram(ColorShader), SetPolygonMode(Line);
    var k := if switchBlends then 3 else 2;
    assert calls[..k] == pre + [c1] + [c2];
    if switchBlends {
      ReplaySnoc(s, [], SetBlend(false));
      assert [] + [SetBlend(false)] == pre;
    }
    ReplaySnoc(s, pre, c1);
    ReplaySnoc(s, pre + [c1], c2);
  }

  /** Rendering hands the GL state back as it found it, provided the object
      shader is active, polygons are filled, and blending is on whenever
      `switchBlends` asks for it to be switched off and on again. */
  lemma RenderRestoresState(b: Buffer, switchBlends: bool, s: GlState)
    requires s.program == ObjectShader && s.mode == Fill && (switchBlends ==> s.blend)
    requires Render(b, switchBlends).Success?
    ensures Replay(s, Render(b, switchBlends).value) == s
  {
    if BindIbo(b) && BindVbo(b) {
      var draws := DrawPass(b.modelObject.model.textureConfig, b.levelTextures, b.textureIds).value;
      var attribs := AttribCalls(b.rendered);
      var outline := if b.selected then Outline(b, switchBlends) else [];
      assert Render(b, switchBlends).value == attribs + draws + outline;
      ReplayAppend(s, attribs + draws, outline);
      ReplayAppend(s, attribs, draws);
      ReplayNeutral(s, attribs);
      DrawPassNeutral(b.modelObject.model.textureConfig, b.levelTextures, b.textureIds, s);
      if b.selected {
        OutlineRestores(b, switchBlends, s);
      }
    }
  }
}

=== FILE: single.dfy ===
/** A C# `float` held as its IEEE-754 bit pattern. The code in this model
    never does arithmetic on floats: it only copies them and reinterprets four
    bytes as one (`BitConverter.ToSingle`), which is exact on bit patterns. */
module Single {
  import opened Common

  datatype Single = FromBits(bits: Word)

  /** `0.0f`, the value `new float[n]` fills an array with. */
  const Zero: Single := FromBits(0)

  /** `BitConverter.ToSingle` on a little-endian host: byte `b0` is the least
      significant byte of the pattern. */
  function FromBytes(b0: Byte, b1: Byte, b2: Byte, b3: Byte): (f: Single)
  {
    FromBits(b0 + 0x100 * (b1 + 0x100 * (b2 + 0x100 * b3)))
  }

  /** `BitConverter.GetBytes(float)` on a little-endian host. */
  function ToBytes(f: Single): (b: Bytes)
    ensures |b| == 4
  {
    var q1 := f.bits / 0x100;
    var q2 := q1 / 0x100;
    [f.bits % 0x100, q1 % 0x100, q2 % 0x100, q2 / 0x100]
  }

  /** Euclidean division by 256 is determined by the digit split. */
  lemma SplitDigit(x: int, q: int, r: int)
    requires x == r + 0x100 * q && 0 <= r < 0x100
    ensures x / 0x100 == q && x % 0x100 == r
  {
  }

  /** `BitConverter.ToSingle(value, start)`: four bytes from `start`, or the
      argument exception the library throws when they are not all there. */
  function ToSingleAt(value: Bytes, start: int): (r: Option<Single>)
    ensures r.Some? <==> 0 <= start && start + 4 <= |value|
    ensures r.Some? ==> ToBytes(r.value) == value[start..start + 4]
  {
    if 0 <= start && start + 4 <= |value| then
      var f := FromBytes(value[start], value[start + 1], value[start + 2], value[start + 3]);
      BytesOfFromBytes(value[start], value[start + 1], value[start + 2], value[start + 3]);
      Some(f)
    else
      None
  }

  /** Reinterpreting four bytes as a float and reading the float's bytes back
      gives the same four bytes. */
  lemma BytesOfFromBytes(b0: Byte, b1: Byte, b2: Byte, b3: Byte)
    ensures ToBytes(FromBytes(b0, b1, b2, b3)) == [b0, b1, b2, b3]
  {
    var q2 := b2 + 0x100 * b3;
    var q1 := b1 + 0x100 * q2;
    var w := b0 + 0x100 * q1;
    SplitDigit(w, q1, b0);
    SplitDigit(q1, q2, b1);
    SplitDigit(q2, b3, b2);
  }

  /** A float is determined by its four bytes. */
  lemma FromBytesOfBytes(f: Single)
    ensures var b := ToBytes(f); FromBytes(b[0], b[1], b[2], b[3]) == f
  {
    var w := f.bits;
    var q1 := w / 0x100;
    var q2 := q1 / 0x100;
    assert w == w % 0x100 + 0x100 * q1;
    assert q1 == q1 % 0x100 + 0x100 * q2;
    assert q2 == q2 % 0x100 + 0x100 * (q2 / 0x100);
  }
}

=== FILE: vertex_layout.dfy ===
/** The vertex data a renderable buffer uploads, and the attribute layout the
    vertex shader reads it with.

    A vertex record is 8 floats: position (3), normal (3) and texture
    coordinates (2). Terrain vertices also carry one RGBA colour of 4 bytes.
    Before upload the colour is packed into a ninth float by reinterpreting its
    bytes, so a terrain record is 9 floats. */
module VertexLayout {
  import opened Common
  import opened Single

  /** Floats in a vertex record as the model stores it. */
  const VertexFloats: nat := 8

  /** Floats in an interleaved terrain record: the vertex record and its colour word. */
  const TerrainFloats: nat := 9

  /** Whether every whole vertex record has a colour: the loop of the interleave
      reads 4 colour bytes for each of the `|vbo| / 8` records. */
  predicate ColoursCover(vbo: seq<Single>, rgbas: Bytes) {
    4 * (|vbo| / VertexFloats) <= |rgbas|
  }

  /** The colour word of vertex `i`: its 4 RGBA bytes reinterpreted as one float. */
  function ColourWord(rgbas: Bytes, i: nat): (w: Single)
    requires 4 * i + 4 <= |rgbas|
    ensures ToBytes(w) == rgbas[4 * i..4 * i + 4]
  {
    ToSingleAt(rgbas, 4 * i).value
  }

  /** The first `n` interleaved records, built record by record: the 8 floats
      of vertex `k` followed by its colour word. */
  function Records(vbo: seq<Single>, rgbas: Bytes, n: nat): (r: seq<Single>)
    requires 8 * n <= |vbo| && 4 * n <= |rgbas|
    ensures |r| == 9 * n
  {
    if n == 0 then []
    else Records(vbo, rgbas, n - 1) + vbo[8 * (n - 1)..8 * n] + [ColourWord(rgbas, n - 1)]
  }

  /** The terrain upload array: the whole vertex records interleaved with their
      colour words, padded with zeros to `|vbo| + |rgbas| / 4` floats, the
      length the array is allocated with. */
  function Interleaved(vbo: seq<Single>, rgbas: Bytes): (r: seq<Single>)
    requires ColoursCover(vbo, rgbas)
    ensures |r| == |vbo| + |rgbas| / 4
  {
    var n := |vbo| / VertexFloats;
    Records(vbo, rgbas, n) + seq(|vbo| + |rgbas| / 4 - 9 * n, _ => Zero)
  }

  /** Growing the record count keeps the earlier records in place. */
  lemma {:induction false} RecordsPrefix(vbo: seq<Single>, rgbas: Bytes, m: nat, n: nat)
    requires m <= n && 8 * n <= |vbo| && 4 * n <= |rgbas|
    ensures Records(vbo, rgbas, n)[..9 * m] == Records(vbo, rgbas, m)
  {
    if m < n {
      RecordsPrefix(vbo, rgbas, m, n - 1);
      assert Records(vbo, rgbas, n)[..9 * (n - 1)] == Records(vbo, rgbas, n - 1);
    }
  }

  /** Record `i` of the first `n` records: the 8 floats of vertex `i`, then
      its colour word. */
  lemma RecordsSlice(vbo: seq<Single>, rgbas: Bytes, n: nat, i: nat)
    requires i < n && 8 * n <= |vbo| && 4 * n <= |rgbas|
    ensures Records(vbo, rgbas, n)[9 * i..9 * i + 9] == vbo[8 * i..8 * i + 8] + [ColourWord(rgbas, i)]
  {
    RecordsPrefix(vbo, rgbas, i + 1, n);
    assert Records(vbo, rgbas, n)[9 * i..9 * i + 9] == Records(vbo, rgbas, n)[..9 * (i + 1)][9 * i..];
  }

  /** The first 8 writes of one loop iteration: the vertex floats of record
      `i` go to slots `9 * i` to `9 * i + 7`. */
  method StoreVertex(full: array<Single>, i: nat, vbo: seq<Single>)
    requires 9 * i + 8 <= full.Length && 8 * i + 8 <= |vbo|
    modifies full
    ensures full[..9 * i] == old(full[..9 * i])
    ensures full[9 * i..9 * i + 8] == vbo[8 * i..8 * i + 8]
    ensures forall j :: 9 * i + 8 <= j < full.Length ==> full[j] == old(full[j])
  {
    full[9 * i + 0] := vbo[8 * i + 0];
    full[9 * i + 1] := vbo[8 * i + 1];
    full[9 * i + 2] := vbo[8 * i + 2];
    full[9 * i + 3] := vbo[8 * i + 3];
    full[9 * i + 4] := vbo[8 * i + 4];
    full[9 * i + 5] := vbo[8 * i + 5];
    full[9 * i + 6] := vbo[8 * i + 6];
    full[9 * i + 7] := vbo[8 * i + 7];
  }

  /** The array after `i` iterations of the interleave loop: the first `i`
      records written, the rest still as allocated. */
  predicate Filled(vbo: seq<Single>, rgbas: Bytes, full: seq<Single>, i: nat) {
    && 8 * i <= |vbo| && 4 * i <= |rgbas| && 9 * i <= |full|
    && full[..9 * i] == Records(vbo, rgbas, i)
    && forall j :: 9 * i <= j < |full| ==> full[j] == Zero
  }

  /** One iteration of the interleave loop: the vertex floats of record `i`,
      then its colour word. `false` is the exception `BitConverter.ToSingle`
      throws when fewer than 4 colour bytes are left; the 8 writes before it
      are in bounds even then. */
  method InterleaveRecord(full: array<Single>, vbo: seq<Single>, rgbas: Bytes, i: nat) returns (ok: bool)
    requires 8 * i + 8 <= |vbo| && full.Length == |vbo| + |rgbas| / 4
    requires Filled(vbo, rgbas, full[..], i)
    modifies full
    ensures ok <==> 4 * i + 4 <= |rgbas|
    ensures ok ==> Filled(vbo, rgbas, full[..], i + 1)
  {
    StoreVertex(full, i, vbo);
    var colour := ToSingleAt(rgbas, i * 4);
    if colour.None? {
      return false;
    }
    full[9 * i + 8] := colour.value;
    assert full[..9 * (i + 1)] == full[..9 * i] + full[9 * i..9 * i + 8] + [full[9 * i + 8]];
    return true;
  }

  /** The terrain branch of `UpdateBuffers`: a zeroed array of
      `|vbo| + |rgbas| / 4` floats, filled record by record. `None` is the
      exception the loop throws when the colours run out before the records. */
  method Interleave(vbo: seq<Single>, rgbas: Bytes) returns (r: Option<seq<Single>>)
    ensures r.Some? <==> ColoursCover(vbo, rgbas)
    ensures r.Some? ==> r.value == Interleaved(vbo, rgbas)
  {
    var full := new Single[|vbo| + |rgbas| / 4](_ => Zero);
    var i := 0;
    while i < |vbo| / 8
      invariant 0 <= i <= |vbo| / 8
      invariant Filled(vbo, rgbas, full[..], i)
    {
      var ok := InterleaveRecord(full, vbo, rgbas, i);
      if !ok {
        return None;
      }
      i := i + 1;
    }
    assert full[..] == full[..9 * i] + full[9 * i..];
    return Some(full[..]);
  }

  /** Record `i` of an interleaved terrain array holds the 8 floats of vertex
      `i` and then its colour, whose bytes are the vertex's 4 RGBA bytes. */
  lemma InterleavedRecord(vbo: seq<Single>, rgbas: Bytes, i: nat)
    requires ColoursCover(vbo, rgbas) && i < |vbo| / VertexFloats
    ensures Interleaved(vbo, rgbas)[9 * i..9 * i + 8] == vbo[8 * i..8 * i + 8]
    ensures ToBytes(Interleaved(vbo, rgbas)[9 * i + 8]) == rgbas[4 * i..4 * i + 4]
  {
    var n := |vbo| / VertexFloats;
    var full := Interleaved(vbo, rgbas);
    RecordsSlice(vbo, rgbas, n, i);
    assert full[9 * i..9 * i + 9] == Records(vbo, rgbas, n)[9 * i..9 * i + 9];
    assert full[9 * i..9 * i + 8] == full[9 * i..9 * i + 9][..8];
    assert full[9 * i + 8] == full[9 * i..9 * i + 9][8];
  }

  /** Past the whole records the interleaved array is zero padding. */
  lemma InterleavedPadding(vbo: seq<Single>, rgbas: Bytes, j: nat)
    requires ColoursCover(vbo, rgbas) && 9 * (|vbo| / VertexFloats) <= j < |vbo| + |rgbas| / 4
    ensures Interleaved(vbo, rgbas)[j] == Zero
  {
  }

  /** The inverse of the interleave: splits the first `n` 9-float records back
      into the vertex floats and the colour bytes. */
  function Deinterleave(full: seq<Single>, n: nat): (r: (seq<Single>, Bytes))
    requires 9 * n <= |full|
    ensures |r.0| == 8 * n && |r.1| == 4 * n
  {
    if n == 0 then ([], [])
    else
      var (vertices, colours) := Deinterleave(full, n - 1);
      (vertices + full[9 * (n - 1)..9 * (n - 1) + 8], colours + ToBytes(full[9 * (n - 1) + 8]))
  }

  /** Deinterleaving the first `n` records gives back the first `n` vertex
      records and their colours. */
  lemma {:induction false} DeinterleaveRecords(vbo: seq<Single>, rgbas: Bytes, n: nat)
    requires ColoursCover(vbo, rgbas) && n <= |vbo| / VertexFloats
    ensures Deinterleave(Interleaved(vbo, rgbas), n) == (vbo[..8 * n], rgbas[..4 * n])
  {
    if n > 0 {
      DeinterleaveRecords(vbo, rgbas, n - 1);
      InterleavedRecord(vbo, rgbas, n - 1);
      assert vbo[..8 * n] == vbo[..8 * (n - 1)] + vbo[8 * (n - 1)..8 * n];
      assert rgbas[..4 * n] == rgbas[..4 * (n - 1)] + rgbas[4 * (n - 1)..4 * n];
    }
  }

  /** Round trip: nothing of the whole vertex records or of their colours is
      lost by the interleave. */
  lemma DeinterleaveInterleaved(vbo: seq<Single>, rgbas: Bytes)
    requires ColoursCover(vbo, rgbas)
    ensures
      var n := |vbo| / VertexFloats;
      Deinterleave(Interleaved(vbo, rgbas), n) == (vbo[..8 * n], rgbas[..4 * n])
  {
    DeinterleaveRecords(vbo, rgbas, |vbo| / VertexFloats);
  }

  /** `VertexAttribPointerType` as far as the layout uses it. */
  datatype Component = Float | UnsignedByte

  /** One `GL.VertexAttribPointer` call; stride and offset are in bytes. */
  datatype Attribute = Attribute(
    index: nat, size: nat, kind: Component, normalized: bool, strideBytes: nat, offsetBytes: nat)

  /** The bytes one attribute occupies in a vertex record. */
  function AttributeBytes(a: Attribute): nat {
    a.size * (if a.kind == Float then 4 else 1)
  }

  /** `SetupVertexAttribPointers`: position, normal and texture coordinates,
      and for terrain the normalised colour bytes after them. The attributes
      are numbered in order, share the record as their stride, and tile it:
      each starts where the previous one ends, and the last ends at the end
      of the record. */
  function AttributePointers(terrain: bool): (r: seq<Attribute>)
    ensures |r| == if terrain then 4 else 3
    ensures forall k :: 0 <= k < |r| ==>
      r[k].index == k && r[k].strideBytes == 4 * (if terrain then TerrainFloats else VertexFloats)
    ensures r[0].offsetBytes == 0
    ensures forall k :: 0 < k < |r| ==> r[k].offsetBytes == r[k - 1].offsetBytes + AttributeBytes(r[k - 1])
    ensures r[|r| - 1].offsetBytes + AttributeBytes(r[|r| - 1]) == r[0].strideBytes
    ensures terrain ==> r[3].kind == UnsignedByte && r[3].normalized
  {
    if terrain then
      [Attribute(0, 3, Float, false, 4 * 9, 0),
       Attribute(1, 3, Float, false, 4 * 9, 4 * 3),
       Attribute(2, 2, Float, false, 4 * 9, 4 * 6),
       Attribute(3, 4, UnsignedByte, true, 4 * 9, 4 * 8)]
    else
      [Attribute(0, 3, Float, false, 4 * 8, 0),
       Attribute(1, 3, Float, false, 4 * 8, 4 * 3),
       Attribute(2, 2, Float, false, 4 * 8, 4 * 6)]
  }

  /** What an attribute fetches for one vertex. */
  datatype Fetched = Floats(floats: seq<Single>) | ByteQuad(bytes: Bytes)

  /** The value the vertex shader receives for attribute `a` of vertex `i`
      from an uploaded float array; `None` when it lies past the array. A
      4-component `UnsignedByte` attribute reads the bytes of one float. */
  function Fetch(data: seq<Single>, a: Attribute, i: nat): Option<Fetched>
  {
    var at := (a.strideBytes / 4) * i + a.offsetBytes / 4;
    match a.kind
    case Float => if at + a.size <= |data| then Some(Floats(data[at..at + a.size])) else None
    case UnsignedByte => if a.size == 4 && at < |data| then Some(ByteQuad(ToBytes(data[at]))) else None
  }

  /** The terrain layout reads back, for every whole vertex record, exactly the
      position, normal, texture coordinates and RGBA bytes the interleave
      packed: the stride is the 9-float record and the colour sits at float 8. */
  lemma TerrainLayoutReadsInterleaved(vbo: seq<Single>, rgbas: Bytes, i: nat)
    requires ColoursCover(vbo, rgbas) && i < |vbo| / VertexFloats
    ensures
      var full := Interleaved(vbo, rgbas);
      var attrs := AttributePointers(true);
      && Fetch(full, attrs[0], i) == Some(Floats(vbo[8 * i..8 * i + 3]))
      && Fetch(full, attrs[1], i) == Some(Floats(vbo[8 * i + 3..8 * i + 6]))
      && Fetch(full, attrs[2], i) == Some(Floats(vbo[8 * i + 6..8 * i + 8]))
      && Fetch(full, attrs[3], i) == Some(ByteQuad(rgbas[4 * i..4 * i + 4]))
  {
    var full := Interleaved(vbo, rgbas);
    InterleavedRecord(vbo, rgbas, i);
    SameSlice(full, vbo, 9 * i, 8 * i, 8, 0, 3);
    SameSlice(full, vbo, 9 * i, 8 * i, 8, 3, 6);
    SameSlice(full, vbo, 9 * i, 8 * i, 8, 6, 8);
  }

  /** Equal windows of two sequences have equal sub-windows. */
  lemma SameSlice(s: seq<Single>, t: seq<Single>, p: nat, q: nat, len: nat, a: nat, b: nat)
    requires p + len <= |s| && q + len <= |t| && s[p..p + len] == t[q..q + len] && a <= b <= len
    ensures s[p + a..p + b] == t[q + a..q + b]
  {
    var u, w := s[p + a..p + b], t[q + a..q + b];
    forall k | 0 <= k < |u|
      ensures u[k] == w[k]
    {
      assert u[k] == s[p..p + len][a + k];
      assert w[k] == t[q..q + len][a + k];
    }
  }

  /** The layout of every other object type reads the position, normal and
      texture coordinates of each whole vertex record straight from the
      uploaded vertices, with the 8-float record as stride. */
  lemma PlainLayoutReadsVertices(vbo: seq<Single>, i: nat)
    requires i < |vbo| / VertexFloats
    ensures
      var attrs := AttributePointers(false);
      && Fetch(vbo, attrs[0], i) == Some(Floats(vbo[8 * i..8 * i + 3]))
      && Fetch(vbo, attrs[1], i) == Some(Floats(vbo[8 * i + 3..8 * i + 6]))
      && Fetch(vbo, attrs[2], i) == Some(Floats(vbo[8 * i + 6..8 * i + 8]))
  {
  }
}
